=== FILE: README.md ===
# planner-mobile form logic in Dafny

This project models the form logic of three screens of the planner-mobile trip-planning app:

- the trip-creation wizard (`src/app/index.tsx`);
- the activity form of a trip (`src/app/trip/activities.tsx`);
- the link form of a trip (`src/app/trip/details.tsx`).

Each event handler is a pure function from an immutable form record to the next record. A rejection that the app reports with `Alert.alert` becomes an error value, and the form stays as it was. For each screen, an `Apply` function dispatches one user action: typing, pressing a button, or picking a day. `Run` folds a sequence of actions.

Modules:

- `Wrappers`: `Option` and `Result`.
- `Text`: the JavaScript string operations the handlers use. These are `trim` (ECMAScript WhiteSpace and LineTerminator code points), `length` (UTF-16 code units), `replace` with a one-character string pattern (first occurrence only), and the decimal rendering of a count.
- `Calendar`: the pressed-day record (`DateData`) and the selection returned by the date-ordering helper.
- `NewTrip`: the two-step wizard, the guest list, the guests text and the trip request.
- `Activities`: the required-fields gate, the hour sanitiser, the reset and the modal flow.
- `Links`: the title-then-URL gate, the untrimmed request and the reset.

Collaborators whose code is not part of this model are parameters:

- the email predicate (`validateInput.email`);
- the URL predicate (`validateInput.url`);
- the date-ordering helper (`calendarUtils.orderStartsAtAndEndsAt`);
- `String.prototype.toLowerCase`.

Each server call is a parameter too: a boolean, or the created trip's id as an `Option`.

Modelling assumptions:

- While a modal is visible, only the controls inside it receive actions, because the modal covers the screen.
- A control that a step does not render, or a field marked not editable, ignores the action.
- A `Button` with `isLoading` set is disabled (`src/components/button.tsx:23`), so it ignores presses.
- Each handler runs to completion as one step, so its `await` points are not interleaved with other actions.

## Model

| member | source | states |
|---|---|---|
| Text.Trim | src/app/trip/details.tsx:34 | `trim` never lengthens its input. A non-empty result starts and ends with a visible character. The result is empty exactly when the input holds only whitespace. |
| Text.TrimIsInfix | src/app/index.tsx:48 | `trim` returns an infix of its input: only whitespace is cut, and only at the two ends. |
| Text.TrimUnique | src/app/trip/details.tsx:38 | Any split into leading whitespace, a core with visible ends, and trailing whitespace has `trim` return that core. This is the reference definition that `Trim` meets. |
| Text.Utf16Length | src/app/index.tsx:55 | `length` counts UTF-16 code units. A single character counts one unit, or two when it lies outside the Basic Multilingual Plane. The count lies between the number of characters and twice that number, and equals the number of characters exactly when every character is in the Basic Multilingual Plane. |
| Text.Utf16LengthAppend | src/app/index.tsx:55 | The count of a concatenation is the sum of the counts. With the single-character case, this fixes `length` for every string as the sum of its characters' code units. |
| Text.IndexOf | src/app/trip/activities.tsx:170 | The search for a one-character pattern returns the position of its first occurrence: that position holds the character and no earlier one does. It returns -1 exactly when the character does not occur. |
| Text.RemoveFirst | src/app/trip/activities.tsx:170 | `replace(c, '')` removes exactly one `c` when one is present and nothing when none is. Every other character stays, in order. |
| Text.RemoveFirstUnique | src/app/trip/activities.tsx:170 | The removed `c` is the first one. When the string is a part without `c`, then `c`, then anything, the result is the two parts joined. |
| Text.RemoveFirstAfterDropFirsts | src/app/trip/activities.tsx:170 | Applying `replace(c, '')` after a scan that drops the first occurrence of each character in a set gives the same scan with `c` added to the set. |
| Text.NatToString | src/app/index.tsx:209 | `${n}` for a count is non-empty and made of decimal digits. It starts with `0` only when the count is 0, and is then exactly `"0"`. |
| Text.NatToStringRoundTrip | src/app/index.tsx:209 | The decimal text of a count parses back to the same count. |
| NewTrip.HandleNextStepForm | src/app/index.tsx:47-73 | The first check rejects the form when the destination has no visible character or either date is missing. After that, a destination shorter than 4 UTF-16 units is rejected. From the details step, a valid form only moves to the guests step. Creation is offered only from the guests step. |
| NewTrip.FlagPairDestinationAdvances | src/app/index.tsx:55-60 | A destination of two flag characters counts 4 code units, so it passes the length check and advances the form. |
| NewTrip.PaddedShortDestinationAdvances | src/app/index.tsx:48-60 | `"  ab "` trims to fewer than 4 characters, yet it passes both checks and advances the form, because the length check reads the untrimmed text. |
| NewTrip.HandleSelectDates | src/app/index.tsx:75-83 | The selection becomes whatever the ordering helper returns for the current endpoints and the pressed day. No other field changes. |
| NewTrip.Find | src/app/index.tsx:89 | `find` with `===` returns an entry exactly when the address is in the list, and that entry equals the address. |
| NewTrip.HandleAddEmail | src/app/index.tsx:85-97 | An address failing the email predicate is rejected. A non-empty address already listed is rejected. Otherwise the address is appended at the end and the input is cleared. An empty address is never seen as a duplicate. |
| NewTrip.AddEmailKeepsNoDuplicates | src/app/index.tsx:89-95 | When the email predicate rejects `""`, adding keeps the guest list free of duplicates. |
| NewTrip.AddEmptyEmailTwice | src/app/index.tsx:89-91 | When the email predicate accepts `""`, a list holding `""` gains a second `""`. |
| NewTrip.RemoveAll | src/app/index.tsx:100 | The filter removes every entry equal to the address. Every other entry stays the same number of times and in its original order. |
| NewTrip.HandleRemoveEmail | src/app/index.tsx:99-101 | After removal the address is no longer listed. Every other guest stays, as many times as before and in the same order. Only the guest list changed. |
| NewTrip.RemoveEmailKeepsNoDuplicates | src/app/index.tsx:100 | Removing keeps the guest list free of duplicates. |
| NewTrip.AddThenRemove | src/app/index.tsx:95-100 | Removing a non-empty address that was just added gives back the list from before the addition. |
| NewTrip.GuestsText | src/app/index.tsx:208-210 | The guests text is empty exactly when there are no guests. Otherwise it ends in " pessoa(s) convidada(s)". The part before that suffix is made of decimal digits, does not start with `0`, and reads back as the number of guests. |
| NewTrip.CreateTrip | src/app/index.tsx:136-141 | The trip request carries the destination and guest list of the form. Each chosen date travels as that day's string. In the source an absent date becomes `dayjs(undefined)`, the current time. `NewTrip.Apply` sends only when both dates are chosen, so that case is never reached. |
| NewTrip.PressNext | src/app/index.tsx:47-73 | The next button changes only the step and the loading flag. It is ignored while loading. The step changes only from the details step with accepted details, and then to what `HandleNextStepForm` returns. A trip request is sent exactly when the dialog is confirmed in the guests step with accepted details, and it is `CreateTrip` of the form. |
| NewTrip.Apply | src/app/index.tsx:172-288 | A trip request is sent exactly when all of these hold: the confirm dialog is answered yes, no modal is open, the form is in the guests step, the button is not loading, and the details pass both checks. The request sent is `CreateTrip` of the form. The loading flag then stays set only when the trip was created. The destination never changes in the guests step. Outside the calendar, the dates never change in the guests step either. |
| NewTrip.ApplyRoutes | src/app/index.tsx:172-288 | Each control reaches its handler. Typing the destination in the details step sets it, and the dates field opens the calendar. In the guests step, the guests field opens the guest list and "Alterar Local/data" returns to the details step. The next button advances as `HandleNextStepForm` says. A day press goes to the ordering helper. Submitting an address gives `HandleAddEmail`'s form, or the same form on refusal. Removing a listed guest gives `HandleRemoveEmail`. Closing a modal returns to the screen. |
| NewTrip.DetailsFrozenInGuestsStep | src/app/index.tsx:176-189 | In every reachable state of the guests step, no action changes the destination or the dates. |
| NewTrip.StepChanges | src/app/index.tsx:59-61 | The step moves forward only through the next button with accepted details. It moves back only through "Alterar Local/data" (line 197), which always returns to the details step. |
| NewTrip.CalendarOpensOnlyInDetails | src/app/index.tsx:189 | The calendar opens only from the dates field, and only in the details step. |
| NewTrip.ApplyKeepsInvariant | src/app/index.tsx:176-197 | Every action keeps four facts, provided the email predicate rejects `""`. The guest list has no duplicates. The calendar is open only in the details step. The guests modal is open only in the guests step. The guests step holds only accepted details. |
| NewTrip.RunKeepsInvariant | src/app/index.tsx:172-288 | Any sequence of actions keeps those four facts. |
| NewTrip.SentRequestsAreWellFormed | src/app/index.tsx:47-72 | Assume the email predicate rejects `""`. Then every trip request sent from a reachable state has a destination with a visible character and at least 4 units, both dates, and distinct guests. Without that assumption the guests can repeat (`NewTrip.AddEmptyEmailTwice`). |
| Activities.ResetFields | src/app/trip/activities.tsx:43-48 | The reset empties title, date and hour, closes the modal, and keeps only the loading flag. |
| Activities.LimitLength | src/app/trip/activities.tsx:174 | The input keeps at most `maxLength` characters of the typed text, and keeps them in order. |
| Activities.SanitizeHour | src/app/trip/activities.tsx:170 | The sanitiser never lengthens the text. It removes one `.`, one `,` and one `_` when each is present, and nothing else. The remaining characters keep their order. |
| Activities.SanitizeHourDropsFirsts | src/app/trip/activities.tsx:170 | For every input, the sanitiser equals one left-to-right scan. The scan drops the first `.`, the first `,` and the first `_` it meets, and keeps every other character in order. A second occurrence of any of the three always survives. |
| Activities.SanitizeRemovesFirstDotOnly | src/app/trip/activities.tsx:170 | `"1.2.3"` becomes `"12.3"`. |
| Activities.SanitizeNotIdempotent | src/app/trip/activities.tsx:170 | `".."` becomes `"."`, and sanitising again gives `""`. |
| Activities.ChangeHour | src/app/trip/activities.tsx:169-174 | The hour field holds the kept text after sanitising: the first `.`, `,` and `_` are dropped and nothing else is. When the typed text fits in 2 characters, this is the typed text with those first occurrences dropped. The field holds at most 2 characters, drawn in order from what was typed. Nothing else changes. |
| Activities.HandleCreateTripActivity | src/app/trip/activities.tsx:50-71 | The create is refused exactly when title, date or hour is empty. Otherwise the request carries the fields as typed. After a successful create the form is back to its initial state, with the modal closed. The loading flag is false afterwards on every path. |
| Activities.BlankTitleAccepted | src/app/trip/activities.tsx:52-54 | A title of only spaces passes the activity gate. |
| Activities.MarkedDates | src/app/trip/activities.tsx:193 | The calendar marks exactly one day, the chosen date, as selected. |
| Activities.Apply | src/app/trip/activities.tsx:104-202 | Pressing the date field goes from the activity modal to the calendar. Confirm goes back. A day press sets the date to that day's string, and the day becomes the only marked date. The new-activity button opens the activity modal. In that modal, typing sets the title, and typing in the hour field is `Activities.ChangeHour`. Save, when the button is not loading, leaves the form as `Activities.HandleCreateTripActivity` does. Closing any modal returns to the list. A request is sent exactly on save from the activity modal, with the button not loading and all fields filled. It carries the fields as typed. |
| Activities.RunKeepsInvariant | src/app/trip/activities.tsx:169-174 | In every state reached by a sequence of actions, the hour holds at most 2 characters and no save is in flight. |
| Activities.SentRequestsAreWellFormed | src/app/trip/activities.tsx:52-62 | Every activity request sent has a non-empty title and date, and an hour of 1 or 2 characters. |
| Links.ResetFields | src/app/trip/details.tsx:26-30 | The reset empties title and URL, closes the modal, and keeps only the loading flag. |
| Links.HandleCreateTripLink | src/app/trip/details.tsx:32-58 | A title without a visible character is refused first. Next, a URL whose trimmed form fails the predicate is refused. Otherwise the request carries the trip id with the untrimmed title and URL. Success returns the form to its initial state. The loading flag is false afterwards on every path. |
| Links.TitleCheckedBeforeUrl | src/app/trip/details.tsx:34-40 | With a blank title, the URL predicate and the server cannot change the outcome. |
| Links.UrlJudgedTrimmed | src/app/trip/details.tsx:38-40 | The outcome depends on the URL predicate only through its verdict on the trimmed URL. |
| Links.PaddedUrlSentUntrimmed | src/app/trip/details.tsx:38-48 | A URL typed with a space on each side is accepted when the predicate accepts the URL without the spaces. It is then sent with the spaces. |
| Links.Apply | src/app/trip/details.tsx:100-138 | The new-link button opens the modal. In the modal, typing sets the title or the URL, and closing hides the modal. Save, when the button is not loading, leaves the form as `Links.HandleCreateTripLink` does. A link request is sent exactly on save from the open modal, with the button not loading, a visible title, and a URL that passes the predicate once trimmed. It carries the title and URL as typed. No action sets the loading flag. |
| Links.RunNeverLoading | src/app/trip/details.tsx:32-58 | Starting from a form without a save in flight, no sequence of actions leaves the loading flag set. |

## Left out

- Network calls (`tripServer`, `activitiesServer`, `linksServer`, `participantsServer`) and `tripStorage`. They are remote or device I/O. Each call is a success or failure parameter, and the loading of trips, activities, links and participants is not modelled.
- `validateInput.email`, `validateInput.url` and `calendarUtils.orderStartsAtAndEndsAt`. Their code is not part of this model, so they are parameters. The date-range ordering rule they may follow is not stated.
- dayjs formatting and arithmetic: the trip's `starts_at`/`ends_at` strings, an activity's `occurs_at`, and the date shown in the activity form. This is a library with locale and clock dependence. Requests carry the day strings and the hour text instead.
- `router.navigate`, `saveTrip`, `getTrip`, `useEffect` loading, and the text and buttons of alert dialogs. These are navigation and asynchronous UI plumbing. A rejection is an error value. The confirm dialog is an answer attached to the next-step action.
- The calendar's highlighted-day map on the wizard, and `formatDatesInText` beyond holding the helper's value. Both are display-only and produced by the helper.
- `src/components/button.tsx` and `src/components/input.tsx`, beyond a loading button being disabled. They are presentational.
- Interleaving of user actions with a pending `await`. Each handler is one atomic step.
- Activities.LimitLength: counts `maxLength` in characters, not UTF-16 code units. The numeric keyboard only produces Basic Multilingual Plane characters.
- NewTrip.Apply: `toLowerCase` is a parameter, so the contract does not say that the guest input is lower-cased.
- NewTrip.CreateTrip: dates are carried as day strings rather than formatted with dayjs. The request shows an absent date as no value, where the source would send the current time. Behind the gate in `NewTrip.Apply` that case is never reached.

## Observations

- `Text.Trim` and `Text.Utf16Length` differ on purpose. The wizard tests the trimmed destination for emptiness but the untrimmed destination for length. So `"  ab "` is accepted (`NewTrip.PaddedShortDestinationAdvances`).
- The duplicate-address check uses the truthiness of `find`'s result. The guest list stays duplicate-free only because the email predicate is expected to reject `""` (`NewTrip.AddEmptyEmailTwice`).
- The hour sanitiser removes only first occurrences. Two dots pasted at once leave one dot in the field (`Activities.SanitizeNotIdempotent`).
- The link form rejects a title of spaces (`Links.HandleCreateTripLink`). The activity form accepts one (`Activities.BlankTitleAccepted`).

=== FILE: activities.dfy ===
/**
 * The activity form of a trip: its required-fields gate, the hour field's
 * sanitiser, the reset after a successful save, and the flow between the
 * new-activity modal and its calendar.
 */
module Activities {
  import opened Wrappers
  import opened Text
  import opened Calendar

  datatype Modal = NoModal | CalendarModal | NewActivityModal

  /** The component state behind the form (the list of saved activities is left out). */
  datatype ActivityForm = ActivityForm(
    showModal: Modal,
    activityTitle: string,
    activityDate: string,
    activityHour: string,
    isCreatingActivity: bool)

  const InitialForm := ActivityForm(NoModal, "", "", "", false)

  /** `resetFields`: the three fields emptied and the modal closed; only the loading flag survives. */
  function ResetFields(f: ActivityForm): (r: ActivityForm)
    ensures r.activityTitle == "" && r.activityDate == "" && r.activityHour == ""
    ensures r.showModal.NoModal?
    ensures r.(isCreatingActivity := false) == InitialForm
    ensures r.isCreatingActivity == f.isCreatingActivity
  {
    f.(activityTitle := "", activityDate := "", activityHour := "", showModal := NoModal)
  }

  /** The hour field's `maxLength`. */
  const HourMaxLength := 2

  /** The text input keeps no more than `n` characters of what is typed. */
  function LimitLength(text: string, n: nat): (r: string)
    ensures |r| <= n && IsSubsequence(r, text)
    ensures |text| <= n ==> r == text
  {
    var r := if |text| <= n then text else text[..n];
    assert text == r + text[|r|..];
    PrefixIsSubsequence(r, text[|r|..]);
    r
  }

  /**
   * `text.replace('.', '').replace(',', '').replace('_', '')`: each of the
   * three characters loses its FIRST occurrence only; every other character
   * stays, in order.
   */
  function SanitizeHour(text: string): (r: string)
    ensures |r| <= |text|
    ensures multiset(r) == multiset(text) - multiset{'.', ',', '_'}
    ensures IsSubsequence(r, text)
  {
    var a := RemoveFirst(text, '.');
    var b := RemoveFirst(a, ',');
    var r := RemoveFirst(b, '_');
    SanitizeHourMultiset(text, a, b, r);
    SubsequenceTransitive(b, a, text);
    SubsequenceTransitive(r, b, text);
    r
  }

  lemma SanitizeHourMultiset(text: string, a: string, b: string, r: string)
    requires a == RemoveFirst(text, '.') && b == RemoveFirst(a, ',') && r == RemoveFirst(b, '_')
    ensures multiset(r) == multiset(text) - multiset{'.', ',', '_'}
  {
    MinusOneOfEach(multiset(text));
  }

  lemma MinusOneOfEach(m: multiset<char>)
    ensures ((m - multiset{'.'}) - multiset{','}) - multiset{'_'} == m - multiset{'.', ',', '_'}
  {
    var lhs := ((m - multiset{'.'}) - multiset{','}) - multiset{'_'};
    var rhs := m - multiset{'.', ',', '_'};
    forall x ensures lhs[x] == rhs[x] {
      if x == '.' { assert rhs[x] == if m[x] > 0 then m[x] - 1 else 0; }
      else if x == ',' { assert rhs[x] == if m[x] > 0 then m[x] - 1 else 0; }
      else if x == '_' { assert rhs[x] == if m[x] > 0 then m[x] - 1 else 0; }
      else { assert rhs[x] == m[x]; }
    }
  }

  /**
   * Over every input, the sanitiser is the single scan that drops the first
   * `.`, the first `,` and the first `_` it meets and keeps everything else
   * in order; so a second occurrence of any of them always survives.
   */
  lemma SanitizeHourDropsFirsts(text: string)
    ensures SanitizeHour(text) == DropFirsts(text, {'.', ',', '_'}, {})
  {
    DropFirstsNothing(text, {});
    RemoveFirstAfterDropFirsts(text, {}, {}, '.');
    assert {} + {'.'} == {'.'};
    RemoveFirstAfterDropFirsts(text, {'.'}, {}, ',');
    RemoveFirstAfterDropFirsts(text, {'.'} + {','}, {}, '_');
    assert {'.'} + {','} + {'_'} == {'.', ',', '_'};
    SanitizeSteps(text);
  }

  /** Only the first dot goes: `"1.2.3"` becomes `"12.3"`. */
  lemma SanitizeRemovesFirstDotOnly()
    ensures SanitizeHour("1.2.3") == "12.3"
  {
    SanitizeSteps("1.2.3");
    RemoveFirstDot();
    RemoveFirstAbsent("12.3", ',');
    RemoveFirstAbsent("12.3", '_');
  }

  lemma RemoveFirstDot()
    ensures RemoveFirst("1.2.3", '.') == "12.3"
  {
    var s := "1.2.3";
    IndexOfAt(s, '.', 1);
    assert s[..1] + s[2..] == "12.3";
  }

  lemma SanitizeSteps(s: string)
    ensures SanitizeHour(s) == RemoveFirst(RemoveFirst(RemoveFirst(s, '.'), ','), '_')
  {
  }

  /** Two dots pasted at once leave one behind, so sanitising is not idempotent. */
  lemma SanitizeNotIdempotent()
    ensures SanitizeHour("..") == "."
    ensures SanitizeHour(SanitizeHour("..")) == ""
  {
    SanitizeSteps("..");
    SanitizeSteps(".");
    assert IndexOf("..", '.') == 0;
    assert ".."[..0] + ".."[1..] == ".";
    assert RemoveFirst("..", '.') == ".";
    RemoveFirstAbsent(".", ',');
    RemoveFirstAbsent(".", '_');
    assert IndexOf(".", '.') == 0;
    assert RemoveFirst(".", '.') == "";
    RemoveFirstAbsent("", ',');
    RemoveFirstAbsent("", '_');
  }

  /**
   * `onChangeText` of the hour field: what the input kept, sanitised, so the
   * first `.`, `,` and `_` of the kept text are gone and nothing else is.
   */
  function ChangeHour(f: ActivityForm, text: string): (r: ActivityForm)
    ensures |r.activityHour| <= HourMaxLength
    ensures IsSubsequence(r.activityHour, text)
    ensures multiset(r.activityHour) == multiset(LimitLength(text, HourMaxLength)) - multiset{'.', ',', '_'}
    ensures r.activityHour == DropFirsts(LimitLength(text, HourMaxLength), {'.', ',', '_'}, {})
    ensures |text| <= HourMaxLength ==> r.activityHour == DropFirsts(text, {'.', ',', '_'}, {})
    ensures r == f.(activityHour := r.activityHour)
  {
    var kept := LimitLength(text, HourMaxLength);
    var hour := SanitizeHour(kept);
    SubsequenceTransitive(hour, kept, text);
    SanitizeHourDropsFirsts(kept);
    f.(activityHour := hour)
  }

  /** What `activitiesServer.create` receives; turning date and hour into a timestamp is not modelled. */
  datatype ActivityRequest = ActivityRequest(tripId: string, title: string, date: string, hour: string)

  datatype SaveResult = MissingFields | CreateFailed(request: ActivityRequest) | Created(request: ActivityRequest)

  datatype Saved = Saved(form: ActivityForm, result: SaveResult)

  /** All three fields hold something (`!activityTitle` is true only for the empty string). */
  predicate FieldsFilled(f: ActivityForm) {
    |f.activityTitle| > 0 && |f.activityDate| > 0 && |f.activityHour| > 0
  }

  /**
   * `handleCreateTripActivity`: refused unless the three fields are filled;
   * otherwise the request carries them as typed. On success the form is back
   * to its initial state; on any outcome the loading flag ends cleared.
   * `serverOk` is whether the create call succeeded.
   */
  function HandleCreateTripActivity(f: ActivityForm, tripId: string, serverOk: bool): (r: Saved)
    ensures !r.form.isCreatingActivity
    ensures r.result.MissingFields? <==> !FieldsFilled(f)
    ensures r.result.Created? <==> FieldsFilled(f) && serverOk
    ensures !r.result.MissingFields? ==> r.result.request == ActivityRequest(tripId, f.activityTitle, f.activityDate, f.activityHour)
    ensures r.result.Created? ==> r.form == InitialForm
    ensures !r.result.Created? ==> r.form == f.(isCreatingActivity := false)
  {
    if f.activityTitle == "" || f.activityDate == "" || f.activityHour == "" then
      Saved(f.(isCreatingActivity := false), MissingFields)
    else
      var request := ActivityRequest(tripId, f.activityTitle, f.activityDate, f.activityHour);
      var sending := f.(isCreatingActivity := true);
      if serverOk then
        Saved(ResetFields(sending).(isCreatingActivity := false), Created(request))
      else
        Saved(sending.(isCreatingActivity := false), CreateFailed(request))
  }

  /** Unlike a link title, an activity title made of spaces passes the gate. */
  lemma BlankTitleAccepted(f: ActivityForm, tripId: string)
    requires f.activityTitle == "   " && f.activityDate != "" && f.activityHour != ""
    ensures !HasVisibleChar(f.activityTitle)
    ensures HandleCreateTripActivity(f, tripId, true).result.Created?
  {
  }

  /** How the calendar highlights a day. */
  datatype Marking = Marking(selected: bool)

  /** `markedDates={{ [activityDate]: { selected: true } }}`. */
  function MarkedDates(f: ActivityForm): (m: map<string, Marking>)
    ensures m.Keys == {f.activityDate}
    ensures m[f.activityDate].selected
  {
    map[f.activityDate := Marking(true)]
  }

  /** What the user can do. `ConfirmDate` is the calendar's "Confirmar" button. */
  datatype ActivityEvent =
    | PressNewActivity
    | ChangeTitle(text: string)
    | PressDateField
    | PressDay(day: DateData)
    | ConfirmDate
    | CloseModal
    | ChangeHour(text: string)
    | PressSave(serverOk: bool)

  datatype Outcome = Outcome(form: ActivityForm, sent: Option<ActivityRequest>)

  function Sent(r: SaveResult): Option<ActivityRequest> {
    match r
    case MissingFields => None
    case CreateFailed(request) => Some(request)
    case Created(request) => Some(request)
  }

  /**
   * One user action. While a modal is open only its own controls respond;
   * a loading button ignores presses.
   */
  function Apply(f: ActivityForm, tripId: string, e: ActivityEvent): (o: Outcome)
    ensures o.sent.Some? ==> && e.PressSave? && f.showModal.NewActivityModal? && !f.isCreatingActivity && FieldsFilled(f)
                             && o.sent.value == ActivityRequest(tripId, f.activityTitle, f.activityDate, f.activityHour)
    ensures e.PressSave? && f.showModal.NewActivityModal? && !f.isCreatingActivity && FieldsFilled(f) ==>
              o.sent == Some(ActivityRequest(tripId, f.activityTitle, f.activityDate, f.activityHour))
    ensures f.showModal.CalendarModal? && e.PressDay? ==>
              && o.form == f.(activityDate := e.day.dateString)
              && MarkedDates(o.form) == map[e.day.dateString := Marking(true)]
    ensures f.showModal.NoModal? && e.PressNewActivity? ==> o.form == f.(showModal := NewActivityModal)
    ensures f.showModal.NewActivityModal? && e.ChangeTitle? ==> o.form == f.(activityTitle := e.text)
    ensures f.showModal.NewActivityModal? && e.ChangeHour? ==> o.form == ChangeHour(f, e.text)
    ensures f.showModal.NewActivityModal? && e.PressSave? && !f.isCreatingActivity ==>
              o.form == HandleCreateTripActivity(f, tripId, e.serverOk).form
    ensures !f.showModal.NoModal? && e.CloseModal? ==> o.form == f.(showModal := NoModal)
    ensures f.showModal.NewActivityModal? && e.PressDateField? ==> o.form == f.(showModal := CalendarModal)
    ensures f.showModal.CalendarModal? && e.ConfirmDate? ==> o.form == f.(showModal := NewActivityModal)
  {
    var same := Outcome(f, None);
    match f.showModal
    case NoModal =>
      if e.PressNewActivity? then Outcome(f.(showModal := NewActivityModal), None) else same
    case NewActivityModal =>
      (match e
       case ChangeTitle(text) => Outcome(f.(activityTitle := text), None)
       case PressDateField => Outcome(f.(showModal := CalendarModal), None)
       case ChangeHour(text) => Outcome(ChangeHour(f, text), None)
       case PressSave(serverOk) =>
         if f.isCreatingActivity then same
         else
           var saved := HandleCreateTripActivity(f, tripId, serverOk);
           Outcome(saved.form, Sent(saved.result))
       case CloseModal => Outcome(f.(showModal := NoModal), None)
       case _ => same)
    case CalendarModal =>
      (match e
       case PressDay(day) => Outcome(f.(activityDate := day.dateString), None)
       case ConfirmDate => Outcome(f.(showModal := NewActivityModal), None)
       case CloseModal => Outcome(f.(showModal := NoModal), None)
       case _ => same)
  }

  function Run(f: ActivityForm, tripId: string, events: seq<ActivityEvent>): ActivityForm
    decreases |events|
  {
    if events == [] then f else Run(Apply(f, tripId, events[0]).form, tripId, events[1..])
  }

  /** Every reachable form: the hour holds at most two characters and no save is in flight. */
  predicate Invariant(f: ActivityForm) {
    |f.activityHour| <= HourMaxLength && !f.isCreatingActivity
  }

  lemma {:induction false} RunKeepsInvariant(f: ActivityForm, tripId: string, events: seq<ActivityEvent>)
    requires Invariant(f)
    ensures Invariant(Run(f, tripId, events))
    decreases |events|
  {
    if events != [] {
      RunKeepsInvariant(Apply(f, tripId, events[0]).form, tripId, events[1..]);
    }
  }

  /** Every activity request the form can send has filled fields and an hour of at most two characters. */
  lemma SentRequestsAreWellFormed(tripId: string, events: seq<ActivityEvent>, e: ActivityEvent)
    ensures var o := Apply(Run(InitialForm, tripId, events), tripId, e);
            o.sent.Some? ==> && o.sent.value.title != "" && o.sent.value.date != ""
                             && 0 < |o.sent.value.hour| <= HourMaxLength
  {
    RunKeepsInvariant(InitialForm, tripId, events);
  }
}

=== FILE: calendar.dfy ===
/** The values the calendar widget and the date-ordering helper exchange with the screens. */
module Calendar {
  import opened Wrappers

  /** A day pressed on the calendar widget: its canonical `YYYY-MM-DD` string and parts. */
  datatype DateData = DateData(dateString: string, year: int, month: int, day: int, timestamp: int)

  /**
   * The selection the date-ordering helper returns: optional first and last
   * day and the text shown in the "Quando?" field. The helper's map of
   * highlighted days is display-only and not modelled.
   */
  datatype DatesSelected = DatesSelected(startsAt: Option<DateData>, endsAt: Option<DateData>, formatDatesInText: string)

  /** The empty selection a screen starts from (`{} as DatesSelected`). */
  const NoDatesSelected := DatesSelected(None, None, "")

  /**
   * `calendarUtils.orderStartsAtAndEndsAt`: from the current endpoints and the
   * pressed day to the new selection. Its code is not part of this model, so
   * the screens take it as a parameter.
   */
  type OrderDates = (Option<DateData>, Option<DateData>, DateData) -> DatesSelected
}

=== FILE: links.dfy ===
/**
 * The link form on a trip's details tab: a title/URL gate checked in that
 * order, the request it sends, and the reset after a successful save.
 */
module Links {
  import opened Wrappers
  import opened Text

  /** The component state behind the form (the fetched links and participants are left out). */
  datatype LinkForm = LinkForm(showModal: bool, linkTitle: string, linkURL: string, isCreatingLinkTrip: bool)

  const InitialForm := LinkForm(false, "", "", false)

  /** `resetFields`: both fields emptied and the modal closed; only the loading flag survives. */
  function ResetFields(f: LinkForm): (r: LinkForm)
    ensures r.linkTitle == "" && r.linkURL == "" && !r.showModal
    ensures r.(isCreatingLinkTrip := false) == InitialForm
    ensures r.isCreatingLinkTrip == f.isCreatingLinkTrip
  {
    f.(linkTitle := "", linkURL := "", showModal := false)
  }

  datatype LinkAlert = MissingFields | InvalidUrl

  /** What `linksServer.create` receives. */
  datatype LinkRequest = LinkRequest(tripId: string, title: string, url: string)

  datatype SaveResult = Rejected(alert: LinkAlert) | CreateFailed(request: LinkRequest) | Created(request: LinkRequest)

  datatype Saved = Saved(form: LinkForm, result: SaveResult)

  /**
   * `handleCreateTripLink`: a title without a visible character is refused
   * before the URL is looked at; the URL predicate judges the TRIMMED URL,
   * yet the request carries title and URL as typed. On success the form is
   * back to its initial state; on any outcome the loading flag ends cleared.
   */
  function HandleCreateTripLink(f: LinkForm, tripId: string, isUrl: string -> bool, serverOk: bool): (r: Saved)
    ensures !r.form.isCreatingLinkTrip
    ensures (r.result.Rejected? && r.result.alert.MissingFields?) <==> !HasVisibleChar(f.linkTitle)
    ensures (r.result.Rejected? && r.result.alert.InvalidUrl?) <==> HasVisibleChar(f.linkTitle) && !isUrl(Trim(f.linkURL))
    ensures r.result.Created? <==> HasVisibleChar(f.linkTitle) && isUrl(Trim(f.linkURL)) && serverOk
    ensures !r.result.Rejected? ==> r.result.request == LinkRequest(tripId, f.linkTitle, f.linkURL)
    ensures r.result.Created? ==> r.form == InitialForm
    ensures !r.result.Created? ==> r.form == f.(isCreatingLinkTrip := false)
  {
    if Trim(f.linkTitle) == "" then
      Saved(f.(isCreatingLinkTrip := false), Rejected(MissingFields))
    else if !isUrl(Trim(f.linkURL)) then
      Saved(f.(isCreatingLinkTrip := false), Rejected(InvalidUrl))
    else
      var request := LinkRequest(tripId, f.linkTitle, f.linkURL);
      var sending := f.(isCreatingLinkTrip := true);
      if serverOk then
        Saved(ResetFields(sending).(isCreatingLinkTrip := false), Created(request))
      else
        Saved(sending.(isCreatingLinkTrip := false), CreateFailed(request))
  }

  /** A blank title decides the outcome whatever the URL predicate and the server would say. */
  lemma TitleCheckedBeforeUrl(f: LinkForm, tripId: string, isUrl1: string -> bool, isUrl2: string -> bool, ok1: bool, ok2: bool)
    requires !HasVisibleChar(f.linkTitle)
    ensures HandleCreateTripLink(f, tripId, isUrl1, ok1) == HandleCreateTripLink(f, tripId, isUrl2, ok2)
  {
  }

  /** Only the trimmed URL reaches the predicate: the outcome depends on its verdict there and nowhere else. */
  lemma UrlJudgedTrimmed(f: LinkForm, tripId: string, isUrl: string -> bool, ok: bool)
    ensures HandleCreateTripLink(f, tripId, isUrl, ok) == HandleCreateTripLink(f, tripId, _ => isUrl(Trim(f.linkURL)), ok)
  {
  }

  /** A URL typed with surrounding spaces passes on its trimmed form and is sent with the spaces. */
  lemma PaddedUrlSentUntrimmed(tripId: string, isUrl: string -> bool, ok: bool, url: string)
    requires url != [] && !IsJsWhitespace(url[0]) && !IsJsWhitespace(url[|url| - 1])
    ensures var f := LinkForm(true, "Hotel", " " + url + " ", false);
            var r := HandleCreateTripLink(f, tripId, isUrl, ok).result;
            isUrl(url) ==> !r.Rejected? && r.request.url == " " + url + " " != url
  {
    var padded := " " + url + " ";
    var f := LinkForm(true, "Hotel", padded, false);
    assert Trim(padded) == url by {
      assert AllWhitespace(" ");
      TrimUnique(" ", url, " ");
    }
    assert HasVisibleChar(f.linkTitle) by {
      assert !IsJsWhitespace(f.linkTitle[0]);
    }
    assert padded != url by {
      assert |padded| == |url| + 2;
    }
    if isUrl(url) {
      var r := HandleCreateTripLink(f, tripId, isUrl, ok).result;
      assert !r.Rejected? && r.request == LinkRequest(tripId, "Hotel", padded);
    }
  }

  /** What the user can do on the tab. */
  datatype LinkEvent =
    | PressNewLink
    | ChangeTitle(text: string)
    | ChangeUrl(text: string)
    | PressSave(serverOk: bool)
    | CloseModal

  datatype Outcome = Outcome(form: LinkForm, sent: Option<LinkRequest>)

  function Sent(r: SaveResult): Option<LinkRequest> {
    match r
    case Rejected(_) => None
    case CreateFailed(request) => Some(request)
    case Created(request) => Some(request)
  }

  /** One user action. While the modal is open only its own controls respond; a loading button ignores presses. */
  function Apply(f: LinkForm, tripId: string, isUrl: string -> bool, e: LinkEvent): (o: Outcome)
    ensures o.sent.Some? ==> && e.PressSave? && f.showModal && !f.isCreatingLinkTrip
                             && HasVisibleChar(f.linkTitle) && isUrl(Trim(f.linkURL))
                             && o.sent.value == LinkRequest(tripId, f.linkTitle, f.linkURL)
    ensures e.PressSave? && f.showModal && !f.isCreatingLinkTrip && HasVisibleChar(f.linkTitle) && isUrl(Trim(f.linkURL)) ==>
              o.sent == Some(LinkRequest(tripId, f.linkTitle, f.linkURL))
    ensures !o.form.isCreatingLinkTrip || f.isCreatingLinkTrip
    ensures !f.showModal && e.PressNewLink? ==> o.form == f.(showModal := true)
    ensures f.showModal && e.ChangeTitle? ==> o.form == f.(linkTitle := e.text)
    ensures f.showModal && e.ChangeUrl? ==> o.form == f.(linkURL := e.text)
    ensures f.showModal && e.PressSave? && !f.isCreatingLinkTrip ==>
              o.form == HandleCreateTripLink(f, tripId, isUrl, e.serverOk).form
    ensures f.showModal && e.CloseModal? ==> o.form == f.(showModal := false)
  {
    var same := Outcome(f, None);
    if !f.showModal then
      if e.PressNewLink? then Outcome(f.(showModal := true), None) else same
    else
      match e
      case ChangeTitle(text) => Outcome(f.(linkTitle := text), None)
      case ChangeUrl(text) => Outcome(f.(linkURL := text), None)
      case PressSave(serverOk) =>
        if f.isCreatingLinkTrip then same
        else
          var saved := HandleCreateTripLink(f, tripId, isUrl, serverOk);
          Outcome(saved.form, Sent(saved.result))
      case CloseModal => Outcome(f.(showModal := false), None)
      case PressNewLink => same
  }

  /** The form after a sequence of actions. */
  function Run(f: LinkForm, tripId: string, isUrl: string -> bool, events: seq<LinkEvent>): LinkForm
    decreases |events|
  {
    if events == [] then f else Run(Apply(f, tripId, isUrl, events[0]).form, tripId, isUrl, events[1..])
  }

  /** From the initial form, no sequence of actions leaves a save in flight. */
  lemma {:induction false} RunNeverLoading(f: LinkForm, tripId: string, isUrl: string -> bool, events: seq<LinkEvent>)
    requires !f.isCreatingLinkTrip
    ensures !Run(f, tripId, isUrl, events).isCreatingLinkTrip
    decreases |events|
  {
    if events != [] {
      RunNeverLoading(Apply(f, tripId, isUrl, events[0]).form, tripId, isUrl, events[1..]);
    }
  }
}

=== FILE: new_trip.dfy ===
/**
 * The trip-creation screen: a two-step form (trip details, then guests), the
 * guest list it collects, and the request it sends once the user confirms.
 * Each handler is a pure transition from one form state to the next; an
 * alert dialog that rejects the input leaves the form as it was.
 */
module NewTrip {
  import opened Wrappers
  import opened Text
  import opened Calendar

  datatype StepForm = TripDetails | AddEmails

  datatype Modal = NoModal | CalendarModal | GuestsModal

  /** Everything the screen keeps in component state, except the loading spinner of the initial fetch. */
  datatype TripForm = TripForm(
    selectedDates: DatesSelected,
    destination: string,
    emailToInvite: string,
    emailsToInvite: seq<string>,
    stepForm: StepForm,
    showModal: Modal,
    isCreatingTrip: bool)

  const InitialForm := TripForm(NoDatesSelected, "", "", [], TripDetails, NoModal, false)

  /** The collaborators whose code is not part of this model. */
  datatype Deps = Deps(isEmail: string -> bool, orderDates: OrderDates, toLowerCase: string -> string)

  /** The reasons an alert dialog gives for refusing the input. */
  datatype TripAlert = IncompleteDetails | DestinationTooShort | InvalidEmail | EmailAlreadyAdded

  const MinDestinationLength := 4

  /** The destination has a visible character and both ends of the trip are chosen. */
  predicate DetailsFilled(f: TripForm) {
    && HasVisibleChar(f.destination)
    && f.selectedDates.startsAt.Some?
    && f.selectedDates.endsAt.Some?
  }

  /** The details pass both checks of the "next" button. */
  predicate DetailsAccepted(f: TripForm) {
    DetailsFilled(f) && Utf16Length(f.destination) >= MinDestinationLength
  }

  datatype NextStep = Rejected(alert: TripAlert) | Advanced(form: TripForm) | ConfirmRequested

  /**
   * `handleNextStepForm`: the destination is checked trimmed for emptiness but
   * untrimmed for its length; from the details step a valid form only moves
   * to the guests step, and only from the guests step is creation offered.
   */
  function HandleNextStepForm(f: TripForm): (r: NextStep)
    ensures (r.Rejected? && r.alert.IncompleteDetails?) <==> !DetailsFilled(f)
    ensures (r.Rejected? && r.alert.DestinationTooShort?) <==> DetailsFilled(f) && Utf16Length(f.destination) < MinDestinationLength
    ensures r.Advanced? <==> DetailsAccepted(f) && f.stepForm.TripDetails?
    ensures r.Advanced? ==> r.form == f.(stepForm := AddEmails)
    ensures r.ConfirmRequested? <==> DetailsAccepted(f) && f.stepForm.AddEmails?
  {
    var filled := Trim(f.destination) != [] && f.selectedDates.startsAt.Some? && f.selectedDates.endsAt.Some?;
    assert filled == DetailsFilled(f);
    var short := Utf16Length(f.destination) < MinDestinationLength;
    assert (filled && !short) == DetailsAccepted(f);
    if !filled then
      Rejected(IncompleteDetails)
    else if short then
      Rejected(DestinationTooShort)
    else if f.stepForm.TripDetails? then
      Advanced(f.(stepForm := AddEmails))
    else
      ConfirmRequested
  }

  /** A short name padded with spaces passes both checks: `"  ab "` counts five characters. */
  lemma PaddedShortDestinationAdvances(f: TripForm)
    requires f.destination == "  ab " && f.stepForm.TripDetails?
    requires f.selectedDates.startsAt.Some? && f.selectedDates.endsAt.Some?
    ensures |Trim(f.destination)| < MinDestinationLength
    ensures HandleNextStepForm(f) == Advanced(f.(stepForm := AddEmails))
  {
    PaddedDestination();
  }

  lemma PaddedDestination()
    ensures Trim("  ab ") == "ab"
    ensures HasVisibleChar("  ab ")
  {
    var pre, core, post := "  ", "ab", " ";
    assert AllWhitespace(pre) && AllWhitespace(post);
    assert !IsJsWhitespace(core[0]) && !IsJsWhitespace(core[|core| - 1]);
    TrimUnique(pre, core, post);
    assert pre + core + post == "  ab ";
    assert "  ab "[2] == 'a';
  }

  /**
   * A two-character name outside the Basic Multilingual Plane, such as a pair
   * of regional-indicator flags, counts four code units and so is not short.
   */
  lemma FlagPairDestinationAdvances(f: TripForm)
    requires f.destination == "\U{1F1E7}\U{1F1F7}" && f.stepForm.TripDetails?
    requires f.selectedDates.startsAt.Some? && f.selectedDates.endsAt.Some?
    ensures |f.destination| == 2 && Utf16Length(f.destination) == 4
    ensures HandleNextStepForm(f) == Advanced(f.(stepForm := AddEmails))
  {
    assert f.destination == ['\U{1F1E7}'] + ['\U{1F1F7}'];
    Utf16LengthAppend(['\U{1F1E7}'], ['\U{1F1F7}']);
    assert !IsJsWhitespace(f.destination[0]);
  }

  /** `handleSelectDates`: the selection becomes whatever the ordering helper makes of the pressed day. */
  function HandleSelectDates(f: TripForm, orderDates: OrderDates, day: DateData): (r: TripForm)
    ensures r.selectedDates == orderDates(f.selectedDates.startsAt, f.selectedDates.endsAt, day)
    ensures r.(selectedDates := f.selectedDates) == f
  {
    f.(selectedDates := orderDates(f.selectedDates.startsAt, f.selectedDates.endsAt, day))
  }

  /** `Array.prototype.find` with `===`: the first entry equal to `e`, if any. */
  function Find(list: seq<string>, e: string): (r: Option<string>)
    ensures r.Some? <==> e in list
    ensures r.Some? ==> r.value == e
  {
    if list == [] then None
    else if list[0] == e then Some(list[0])
    else Find(list[1..], e)
  }

  /** JavaScript truthiness of what `find` returns: `undefined` and `""` are false. */
  predicate Truthy(v: Option<string>) {
    v.Some? && v.value != ""
  }

  /**
   * `handleAddEmail`: the typed address must satisfy the email predicate and
   * not be in the list yet; it is then appended at the end and the field
   * cleared. The duplicate test reads the truthiness of `find`'s result, so
   * an empty address already in the list is not seen as a duplicate.
   */
  function HandleAddEmail(f: TripForm, isEmail: string -> bool): (r: Result<TripForm, TripAlert>)
    ensures !isEmail(f.emailToInvite) ==> r == Failure(InvalidEmail)
    ensures (isEmail(f.emailToInvite) && f.emailToInvite != "" && f.emailToInvite in f.emailsToInvite)
              ==> r == Failure(EmailAlreadyAdded)
    ensures r.Success? <==> isEmail(f.emailToInvite) && (f.emailToInvite == "" || f.emailToInvite !in f.emailsToInvite)
    ensures r.Success? ==> r.value == f.(emailsToInvite := f.emailsToInvite + [f.emailToInvite], emailToInvite := "")
  {
    if !isEmail(f.emailToInvite) then Failure(InvalidEmail)
    else if Truthy(Find(f.emailsToInvite, f.emailToInvite)) then Failure(EmailAlreadyAdded)
    else Success(f.(emailsToInvite := f.emailsToInvite + [f.emailToInvite], emailToInvite := ""))
  }

  /** `prev.filter(email => email !== e)`: every entry equal to `e` goes, the rest stay in order. */
  function RemoveAll(list: seq<string>, e: string): (r: seq<string>)
    ensures e !in r
    ensures multiset(r) == multiset(list)[e := 0]
    ensures IsSubsequence(r, list)
  {
    if list == [] then []
    else
      var rest := RemoveAll(list[1..], e);
      assert list == [list[0]] + list[1..];
      if list[0] == e then
        assert IsSubsequence(rest, list) by { SubsequenceDropHead(rest, list); }
        rest
      else
        assert ([list[0]] + rest)[1..] == rest;
        [list[0]] + rest
  }

  /** `handleRemoveEmail`: the address leaves the guest list, every other guest stays in order, and nothing else changes. */
  function HandleRemoveEmail(f: TripForm, email: string): (r: TripForm)
    ensures email !in r.emailsToInvite
    ensures multiset(r.emailsToInvite) == multiset(f.emailsToInvite)[email := 0]
    ensures IsSubsequence(r.emailsToInvite, f.emailsToInvite)
    ensures r == f.(emailsToInvite := r.emailsToInvite)
  {
    f.(emailsToInvite := RemoveAll(f.emailsToInvite, email))
  }

  /** Adding keeps the list free of duplicates, provided the email predicate refuses the empty string. */
  lemma AddEmailKeepsNoDuplicates(f: TripForm, isEmail: string -> bool)
    requires NoDuplicates(f.emailsToInvite) && !isEmail("")
    ensures HandleAddEmail(f, isEmail).Success? ==> NoDuplicates(HandleAddEmail(f, isEmail).value.emailsToInvite)
  {
  }

  /** Without that proviso the list can hold the empty string twice. */
  lemma AddEmptyEmailTwice(f: TripForm, isEmail: string -> bool)
    requires isEmail("") && f.emailToInvite == "" && f.emailsToInvite == [""]
    ensures HandleAddEmail(f, isEmail) == Success(f.(emailsToInvite := ["", ""]))
    ensures !NoDuplicates(HandleAddEmail(f, isEmail).value.emailsToInvite)
  {
    assert Find([""], "") == Some("");
    assert [""] + [""] == ["", ""];
    var list := HandleAddEmail(f, isEmail).value.emailsToInvite;
    assert list[0] == list[1];
  }

  /** Removing keeps the list free of duplicates. */
  lemma RemoveEmailKeepsNoDuplicates(f: TripForm, email: string)
    requires NoDuplicates(f.emailsToInvite)
    ensures NoDuplicates(HandleRemoveEmail(f, email).emailsToInvite)
  {
    SubsequenceKeepsNoDuplicates(RemoveAll(f.emailsToInvite, email), f.emailsToInvite);
  }

  /** Filtering out an address the list does not hold changes nothing. */
  lemma {:induction false} RemoveAbsent(list: seq<string>, e: string)
    requires e !in list
    ensures RemoveAll(list, e) == list
  {
    if list != [] {
      RemoveAbsent(list[1..], e);
      assert list == [list[0]] + list[1..];
    }
  }

  lemma {:induction false} RemoveAllAppend(list: seq<string>, x: string, e: string)
    ensures RemoveAll(list + [x], e) == RemoveAll(list, e) + RemoveAll([x], e)
  {
    if list != [] {
      assert (list + [x])[1..] == list[1..] + [x];
      RemoveAllAppend(list[1..], x, e);
    } else {
      assert list + [x] == [x];
    }
  }

  /** Removing a guest just added gives back the list from before the addition. */
  lemma AddThenRemove(f: TripForm, isEmail: string -> bool)
    requires HandleAddEmail(f, isEmail).Success? && f.emailToInvite != ""
    ensures HandleRemoveEmail(HandleAddEmail(f, isEmail).value, f.emailToInvite).emailsToInvite == f.emailsToInvite
  {
    var e := f.emailToInvite;
    RemoveAllAppend(f.emailsToInvite, e, e);
    RemoveAbsent(f.emailsToInvite, e);
    assert RemoveAll([e], e) == [];
  }

  const GuestsSuffix := " pessoa(s) convidada(s)"

  /**
   * The text of the guests field: empty for no guests, otherwise the count
   * in decimal digits without a leading zero, followed by
   * " pessoa(s) convidada(s)"; the count can be read back from it.
   */
  function GuestsText(emails: seq<string>): (t: string)
    ensures t == "" <==> emails == []
    ensures emails != [] ==> && |t| > |GuestsSuffix|
                             && t[|t| - |GuestsSuffix|..] == GuestsSuffix
                             && (forall i :: 0 <= i < |t| - |GuestsSuffix| ==> IsDigit(t[i]))
                             && t[0] != '0'
                             && ParseNat(t[..|t| - |GuestsSuffix|]) == |emails|
  {
    if |emails| > 0 then
      var t := NatToString(|emails|) + GuestsSuffix;
      NatToStringRoundTrip(|emails|);
      assert t[..|t| - |GuestsSuffix|] == NatToString(|emails|);
      assert forall i :: 0 <= i < |t| - |GuestsSuffix| ==> t[i] == NatToString(|emails|)[i];
      t
    else ""
  }

  /** What `tripServer.create` receives; dates go as their day strings, their formatting is not modelled. */
  datatype TripRequest = TripRequest(destination: string, startsAt: Option<string>, endsAt: Option<string>, emailsToInvite: seq<string>)

  function DayString(d: Option<DateData>): Option<string> {
    match d
    case Some(day) => Some(day.dateString)
    case None => None
  }

  /**
   * The request `createTrip` sends: the form as it stands, each chosen day as
   * its day string. An absent date would be `dayjs(undefined)`, the current
   * time; `Apply` only sends once both dates are chosen, so that never happens.
   * What happens to the loading flag afterwards is part of `Apply`.
   */
  function CreateTrip(f: TripForm): (req: TripRequest)
    ensures req.destination == f.destination && req.emailsToInvite == f.emailsToInvite
    ensures req.startsAt.Some? <==> f.selectedDates.startsAt.Some?
    ensures req.endsAt.Some? <==> f.selectedDates.endsAt.Some?
    ensures f.selectedDates.startsAt.Some? ==> req.startsAt == Some(f.selectedDates.startsAt.value.dateString)
    ensures f.selectedDates.endsAt.Some? ==> req.endsAt == Some(f.selectedDates.endsAt.value.dateString)
  {
    TripRequest(f.destination, DayString(f.selectedDates.startsAt), DayString(f.selectedDates.endsAt), f.emailsToInvite)
  }

  /** The user's answer to the "Confirmar viagem?" dialog, and what the server returned. */
  datatype DialogAnswer = Cancel | Confirm(created: Option<string>)

  /** What the user can do on the screen. Both the close gesture and the "Confirmar" button of the calendar are `CloseModal`. */
  datatype TripEvent =
    | ChangeDestination(text: string)
    | PressDatesField
    | PressDay(day: DateData)
    | CloseModal
    | PressNextStep(answer: DialogAnswer)
    | PressChangeDetails
    | PressGuestsField
    | ChangeEmailToInvite(text: string)
    | SubmitEmail
    | PressRemoveGuest(email: string)

  /** The next form and the trip request sent, if any. */
  datatype Outcome = Outcome(form: TripForm, sent: Option<TripRequest>)

  /**
   * The "next" button: ignored while loading, otherwise `handleNextStepForm`,
   * and from the guests step the "Confirmar viagem?" dialog. Confirming runs
   * `createTrip`: the request goes out, and the loading flag stays set only
   * when the server created the trip.
   */
  function PressNext(f: TripForm, answer: DialogAnswer): (o: Outcome)
    ensures o.form.(stepForm := f.stepForm, isCreatingTrip := f.isCreatingTrip) == f
    ensures o.form.stepForm.AddEmails? != f.stepForm.AddEmails? ==>
              !f.isCreatingTrip && f.stepForm.TripDetails? && DetailsAccepted(f)
    ensures !f.isCreatingTrip && HandleNextStepForm(f).Advanced? ==> o.form == HandleNextStepForm(f).form
    ensures o.sent.Some? ==> && answer.Confirm? && f.stepForm.AddEmails? && !f.isCreatingTrip && DetailsAccepted(f)
                             && o.sent.value == CreateTrip(f)
                             && o.form.isCreatingTrip == answer.created.Some?
    ensures answer.Confirm? && f.stepForm.AddEmails? && !f.isCreatingTrip && DetailsAccepted(f) ==>
              o.sent == Some(CreateTrip(f))
  {
    var same := Outcome(f, None);
    if f.isCreatingTrip then same
    else
      match HandleNextStepForm(f)
      case Rejected(_) => same
      case Advanced(g) => Outcome(g, None)
      case ConfirmRequested =>
        (match answer
         case Cancel => same
         case Confirm(created) => Outcome(f.(isCreatingTrip := created.Some?), Some(CreateTrip(f))))
  }

  /**
   * One user action. While a modal is open only its own controls respond;
   * fields that are not editable, and controls not shown in the current step,
   * ignore the action; a disabled (loading) button ignores presses.
   */
  function Apply(f: TripForm, deps: Deps, e: TripEvent): (o: Outcome)
    ensures o.sent.Some? ==> && e.PressNextStep? && e.answer.Confirm?
                             && f.showModal.NoModal? && f.stepForm.AddEmails? && !f.isCreatingTrip && DetailsAccepted(f)
                             && o.sent.value == CreateTrip(f)
                             && o.form.isCreatingTrip == e.answer.created.Some?
    ensures && e.PressNextStep? && e.answer.Confirm?
            && f.showModal.NoModal? && f.stepForm.AddEmails? && !f.isCreatingTrip && DetailsAccepted(f)
            ==> o.sent == Some(CreateTrip(f))
    ensures f.stepForm.AddEmails? ==> o.form.destination == f.destination
    ensures f.stepForm.AddEmails? && !f.showModal.CalendarModal? ==> o.form.selectedDates == f.selectedDates
  {
    var same := Outcome(f, None);
    match f.showModal
    case NoModal =>
      (match e
       case ChangeDestination(text) =>
         if f.stepForm.TripDetails? then Outcome(f.(destination := text), None) else same
       case PressDatesField =>
         if f.stepForm.TripDetails? then Outcome(f.(showModal := CalendarModal), None) else same
       case PressNextStep(answer) => PressNext(f, answer)
       case PressChangeDetails =>
         if f.stepForm.AddEmails? then Outcome(f.(stepForm := TripDetails), None) else same
       case PressGuestsField =>
         if f.stepForm.AddEmails? then Outcome(f.(showModal := GuestsModal), None) else same
       case _ => same)
    case CalendarModal =>
      (match e
       case PressDay(day) => Outcome(HandleSelectDates(f, deps.orderDates, day), None)
       case CloseModal => Outcome(f.(showModal := NoModal), None)
       case _ => same)
    case GuestsModal =>
      (match e
       case ChangeEmailToInvite(text) => Outcome(f.(emailToInvite := deps.toLowerCase(text)), None)
       case SubmitEmail =>
         (match HandleAddEmail(f, deps.isEmail)
          case Success(g) => Outcome(g, None)
          case Failure(_) => same)
       case PressRemoveGuest(email) =>
         if email in f.emailsToInvite then Outcome(HandleRemoveEmail(f, email), None) else same
       case CloseModal => Outcome(f.(showModal := NoModal), None)
       case _ => same)
  }

  /** Where each action that does something takes the form. */
  lemma ApplyRoutes(f: TripForm, deps: Deps, e: TripEvent)
    ensures f.showModal.NoModal? && f.stepForm.TripDetails? && e.ChangeDestination? ==> Apply(f, deps, e).form == f.(destination := e.text)
    ensures f.showModal.NoModal? && f.stepForm.TripDetails? && e.PressDatesField? ==> Apply(f, deps, e).form == f.(showModal := CalendarModal)
    ensures f.showModal.NoModal? && f.stepForm.AddEmails? && e.PressGuestsField? ==> Apply(f, deps, e).form == f.(showModal := GuestsModal)
    ensures f.showModal.NoModal? && f.stepForm.AddEmails? && e.PressChangeDetails? ==> Apply(f, deps, e).form == f.(stepForm := TripDetails)
    ensures f.showModal.NoModal? && e.PressNextStep? && !f.isCreatingTrip && HandleNextStepForm(f).Advanced? ==>
              Apply(f, deps, e).form == HandleNextStepForm(f).form
    ensures f.showModal.CalendarModal? && e.PressDay? ==> Apply(f, deps, e).form == HandleSelectDates(f, deps.orderDates, e.day)
    ensures !f.showModal.NoModal? && e.CloseModal? ==> Apply(f, deps, e).form == f.(showModal := NoModal)
    ensures f.showModal.GuestsModal? && e.ChangeEmailToInvite? ==> Apply(f, deps, e).form == f.(emailToInvite := deps.toLowerCase(e.text))
    ensures f.showModal.GuestsModal? && e.SubmitEmail? ==>
              Apply(f, deps, e).form == (if HandleAddEmail(f, deps.isEmail).Success? then HandleAddEmail(f, deps.isEmail).value else f)
    ensures f.showModal.GuestsModal? && e.PressRemoveGuest? && e.email in f.emailsToInvite ==>
              Apply(f, deps, e).form == HandleRemoveEmail(f, e.email)
  {
    match f.showModal
    case NoModal => RoutesWithoutModal(f, deps, e);
    case CalendarModal => RoutesInCalendar(f, deps, e);
    case GuestsModal => RoutesInGuestList(f, deps, e);
  }

  /** The screen itself: typing the destination, the two fields that open a modal, the step buttons. */
  lemma RoutesWithoutModal(f: TripForm, deps: Deps, e: TripEvent)
    requires f.showModal.NoModal?
    ensures f.stepForm.TripDetails? && e.ChangeDestination? ==> Apply(f, deps, e).form == f.(destination := e.text)
    ensures f.stepForm.TripDetails? && e.PressDatesField? ==> Apply(f, deps, e).form == f.(showModal := CalendarModal)
    ensures f.stepForm.AddEmails? && e.PressGuestsField? ==> Apply(f, deps, e).form == f.(showModal := GuestsModal)
    ensures f.stepForm.AddEmails? && e.PressChangeDetails? ==> Apply(f, deps, e).form == f.(stepForm := TripDetails)
    ensures e.PressNextStep? && !f.isCreatingTrip && HandleNextStepForm(f).Advanced? ==>
              Apply(f, deps, e).form == HandleNextStepForm(f).form
  {
  }

  /** The calendar: a day press goes to the ordering helper, and closing returns to the screen. */
  lemma RoutesInCalendar(f: TripForm, deps: Deps, e: TripEvent)
    requires f.showModal.CalendarModal?
    ensures e.PressDay? ==> Apply(f, deps, e).form == HandleSelectDates(f, deps.orderDates, e.day)
    ensures e.CloseModal? ==> Apply(f, deps, e).form == f.(showModal := NoModal)
  {
  }

  /** The guest list: typing, adding, removing and closing. */
  lemma RoutesInGuestList(f: TripForm, deps: Deps, e: TripEvent)
    requires f.showModal.GuestsModal?
    ensures e.ChangeEmailToInvite? ==> Apply(f, deps, e).form == f.(emailToInvite := deps.toLowerCase(e.text))
    ensures e.SubmitEmail? ==>
              Apply(f, deps, e).form == (if HandleAddEmail(f, deps.isEmail).Success? then HandleAddEmail(f, deps.isEmail).value else f)
    ensures e.PressRemoveGuest? && e.email in f.emailsToInvite ==>
              Apply(f, deps, e).form == HandleRemoveEmail(f, e.email)
    ensures e.CloseModal? ==> Apply(f, deps, e).form == f.(showModal := NoModal)
  {
  }

  /**
   * In every reachable state (the calendar being open only in the details
   * step), no action of the guests step touches the destination or the dates.
   */
  lemma DetailsFrozenInGuestsStep(f: TripForm, deps: Deps, e: TripEvent)
    requires Invariant(f) && f.stepForm.AddEmails?
    ensures Apply(f, deps, e).form.destination == f.destination
    ensures Apply(f, deps, e).form.selectedDates == f.selectedDates
  {
  }

  /**
   * The step only moves forward through the "next" button with accepted
   * details, and only back through "Alterar Local/data".
   */
  lemma StepChanges(f: TripForm, deps: Deps, e: TripEvent)
    ensures var g := Apply(f, deps, e).form;
            g.stepForm.AddEmails? != f.stepForm.AddEmails? ==>
              && f.showModal.NoModal?
              && ((f.stepForm.TripDetails? && e.PressNextStep? && DetailsAccepted(f))
                  || (f.stepForm.AddEmails? && e.PressChangeDetails?))
    ensures f.showModal.NoModal? && e.PressChangeDetails? ==> Apply(f, deps, e).form.stepForm.TripDetails?
  {
  }

  /** The calendar opens only from the dates field, and only in the details step. */
  lemma CalendarOpensOnlyInDetails(f: TripForm, deps: Deps, e: TripEvent)
    requires !f.showModal.CalendarModal? && Apply(f, deps, e).form.showModal.CalendarModal?
    ensures f.stepForm.TripDetails? && e.PressDatesField?
  {
  }

  /** The form after a sequence of actions. */
  function Run(f: TripForm, deps: Deps, events: seq<TripEvent>): TripForm
    decreases |events|
  {
    if events == [] then f else Run(Apply(f, deps, events[0]).form, deps, events[1..])
  }

  /**
   * What holds in every state the screen can reach: no duplicate guests, the
   * calendar only open in the details step, the guest list only open in the
   * guests step, and the guests step only reached with accepted details.
   */
  predicate Invariant(f: TripForm) {
    && NoDuplicates(f.emailsToInvite)
    && (f.showModal.CalendarModal? ==> f.stepForm.TripDetails?)
    && (f.showModal.GuestsModal? ==> f.stepForm.AddEmails?)
    && (f.stepForm.AddEmails? ==> DetailsAccepted(f))
  }

  lemma ApplyKeepsInvariant(f: TripForm, deps: Deps, e: TripEvent)
    requires Invariant(f) && !deps.isEmail("")
    ensures Invariant(Apply(f, deps, e).form)
  {
    match f.showModal
    case NoModal =>
      if e.PressNextStep? {
        NextStepKeepsInvariant(f, deps, e);
      }
    case CalendarModal =>
    case GuestsModal =>
      match e
      case SubmitEmail => AddEmailKeepsNoDuplicates(f, deps.isEmail);
      case PressRemoveGuest(email) => RemoveEmailKeepsNoDuplicates(f, email);
      case _ =>
  }

  lemma NextStepKeepsInvariant(f: TripForm, deps: Deps, e: TripEvent)
    requires Invariant(f) && f.showModal.NoModal? && e.PressNextStep?
    ensures Invariant(Apply(f, deps, e).form)
  {
    var g := PressNext(f, e.answer).form;
    assert Apply(f, deps, e).form == g;
    InvariantFromDetails(f, g);
  }

  /** The invariant reads only the guest list, the modal, the step and the details. */
  lemma InvariantFromDetails(f: TripForm, g: TripForm)
    requires Invariant(f) && f.showModal.NoModal?
    requires g.emailsToInvite == f.emailsToInvite && g.showModal == f.showModal
    requires g.destination == f.destination && g.selectedDates == f.selectedDates
    requires g.stepForm.AddEmails? ==> f.stepForm.AddEmails? || DetailsAccepted(f)
    ensures Invariant(g)
  {
    assert DetailsAccepted(f) ==> DetailsAccepted(g);
  }

  lemma {:induction false} RunKeepsInvariant(f: TripForm, deps: Deps, events: seq<TripEvent>)
    requires Invariant(f) && !deps.isEmail("")
    ensures Invariant(Run(f, deps, events))
    decreases |events|
  {
    if events != [] {
      ApplyKeepsInvariant(f, deps, events[0]);
      RunKeepsInvariant(Apply(f, deps, events[0]).form, deps, events[1..]);
    }
  }

  /**
   * Every trip request the screen can send names a destination with a visible
   * character and at least four code units, both dates, and distinct guests.
   */
  lemma SentRequestsAreWellFormed(deps: Deps, events: seq<TripEvent>, e: TripEvent)
    requires !deps.isEmail("")
    ensures var o := Apply(Run(InitialForm, deps, events), deps, e);
            o.sent.Some? ==> && HasVisibleChar(o.sent.value.destination)
                             && Utf16Length(o.sent.value.destination) >= MinDestinationLength
                             && o.sent.value.startsAt.Some? && o.sent.value.endsAt.Some?
                             && NoDuplicates(o.sent.value.emailsToInvite)
  {
    RunKeepsInvariant(InitialForm, deps, events);
  }
}

=== FILE: text.dfy ===
/**
 * The JavaScript string operations the screens rely on, written out:
 * `String.prototype.trim`, the `length` property (UTF-16 code units),
 * `String.prototype.replace` with a one-character string pattern, and the
 * decimal rendering of a count inside a template literal; with them, the
 * subsequence and no-duplicates relations their contracts use.
 */
module Text {

  /** The characters `trim` strips: ECMAScript's WhiteSpace and LineTerminator code points. */
  predicate IsJsWhitespace(c: char) {
    || c == '\t' || c == '\n' || c == '\U{000B}' || c == '\U{000C}' || c == '\r'
    || c == ' ' || c == '\U{00A0}' || c == '\U{1680}'
    || ('\U{2000}' <= c <= '\U{200A}')
    || c == '\U{2028}' || c == '\U{2029}' || c == '\U{202F}' || c == '\U{205F}'
    || c == '\U{3000}' || c == '\U{FEFF}'
  }

  predicate AllWhitespace(s: string) {
    forall i :: 0 <= i < |s| ==> IsJsWhitespace(s[i])
  }

  /** The string has a character `trim` would keep. */
  predicate HasVisibleChar(s: string) {
    exists i :: 0 <= i < |s| && !IsJsWhitespace(s[i])
  }

  /** Drops the leading whitespace: the result is a suffix of `s` starting at its first visible character. */
  function TrimStart(s: string): (r: string)
    ensures |r| <= |s| && r == s[|s| - |r|..]
    ensures AllWhitespace(s[..|s| - |r|])
    ensures r == [] || !IsJsWhitespace(r[0])
  {
    if s != [] && IsJsWhitespace(s[0]) then
      var r := TrimStart(s[1..]);
      assert s[..|s| - |r|] == [s[0]] + s[1..][..|s| - 1 - |r|];
      AllWhitespaceAppend([s[0]], s[1..][..|s| - 1 - |r|]);
      r
    else s
  }

  /** Drops the trailing whitespace: the result is a prefix of `s` ending at its last visible character. */
  function TrimEnd(s: string): (r: string)
    ensures |r| <= |s| && r == s[..|r|]
    ensures AllWhitespace(s[|r|..])
    ensures r == [] || !IsJsWhitespace(r[|r| - 1])
  {
    if s != [] && IsJsWhitespace(s[|s| - 1]) then
      var r := TrimEnd(s[..|s| - 1]);
      assert s[|r|..] == s[..|s| - 1][|r|..] + [s[|s| - 1]];
      AllWhitespaceAppend(s[..|s| - 1][|r|..], [s[|s| - 1]]);
      r
    else s
  }

  lemma AllWhitespaceAppend(a: string, b: string)
    requires AllWhitespace(a) && AllWhitespace(b)
    ensures AllWhitespace(a + b)
  {
  }

  /**
   * `s.trim()`: the infix of `s` left once whitespace is cut from both ends.
   * It is empty exactly when `s` holds whitespace only.
   */
  function Trim(s: string): (r: string)
    ensures |r| <= |s|
    ensures r == [] || (!IsJsWhitespace(r[0]) && !IsJsWhitespace(r[|r| - 1]))
    ensures r == [] <==> !HasVisibleChar(s)
  {
    var t := TrimStart(s);
    var r := TrimEnd(t);
    TrimParts(s, t, r);
    r
  }

  /** `trim` cuts only whitespace, and only from the two ends: its result is an infix of `s`. */
  lemma TrimIsInfix(s: string)
    ensures var r := Trim(s);
            exists i :: 0 <= i <= |s| - |r| && r == s[i..i + |r|]
                        && AllWhitespace(s[..i]) && AllWhitespace(s[i + |r|..])
  {
    TrimParts(s, TrimStart(s), Trim(s));
  }

  /** What trimming the two ends one after the other leaves of `s`. */
  lemma TrimParts(s: string, t: string, r: string)
    requires t == TrimStart(s) && r == TrimEnd(t)
    ensures 0 <= |s| - |t| <= |s| - |r|
    ensures r == s[|s| - |t|..|s| - |t| + |r|]
    ensures AllWhitespace(s[..|s| - |t|]) && AllWhitespace(s[|s| - |t| + |r|..])
    ensures r == [] <==> !HasVisibleChar(s)
  {
    var i := |s| - |t|;
    assert r == s[i..i + |r|];
    assert s[i + |r|..] == t[|r|..];
    if r == [] {
      assert s[..i] == s;
    } else {
      assert s[i] == r[0];
    }
  }

  lemma {:induction false} TrimStartUnique(pre: string, x: string)
    requires AllWhitespace(pre)
    requires x == [] || !IsJsWhitespace(x[0])
    ensures TrimStart(pre + x) == x
    decreases |pre|
  {
    if pre != [] {
      assert (pre + x)[1..] == pre[1..] + x;
      TrimStartUnique(pre[1..], x);
    }
  }

  lemma {:induction false} TrimEndUnique(x: string, post: string)
    requires AllWhitespace(post)
    requires x == [] || !IsJsWhitespace(x[|x| - 1])
    ensures TrimEnd(x + post) == x
    decreases |post|
  {
    if post != [] {
      assert (x + post)[..|x + post| - 1] == x + post[..|post| - 1];
      TrimEndUnique(x, post[..|post| - 1]);
    } else {
      assert x + post == x;
    }
  }

  /**
   * `Trim` is the only way to cut whitespace off both ends that leaves a
   * string with visible characters at both ends.
   */
  lemma TrimUnique(pre: string, core: string, post: string)
    requires AllWhitespace(pre) && AllWhitespace(post)
    requires core == [] || (!IsJsWhitespace(core[0]) && !IsJsWhitespace(core[|core| - 1]))
    ensures Trim(pre + core + post) == core
  {
    assert pre + core + post == pre + (core + post);
    if core == [] {
      assert AllWhitespace(pre + post);
      TrimStartUnique(pre + post, []);
      assert pre + post + [] == pre + core + post;
    } else {
      TrimStartUnique(pre, core + post);
      TrimEndUnique(core, post);
    }
  }

  /** UTF-16 code units one character takes: two for a supplementary-plane character. */
  function CodeUnits(c: char): nat {
    if c as int <= 0xFFFF then 1 else 2
  }

  /** JavaScript's `s.length`, which counts UTF-16 code units rather than characters. */
  function Utf16Length(s: string): (n: nat)
    ensures |s| <= n <= 2 * |s|
    ensures n == |s| <==> forall i :: 0 <= i < |s| ==> s[i] as int <= 0xFFFF
    ensures |s| == 1 ==> n == CodeUnits(s[0])
  {
    if s == [] then 0
    else
      var n := CodeUnits(s[0]) + Utf16Length(s[1..]);
      assert forall i :: 1 <= i < |s| ==> s[i] == s[1..][i - 1];
      n
  }

  /**
   * The count is additive: with the single-character case above it fixes the
   * length of every string as the sum of its characters' code units.
   */
  lemma {:induction false} Utf16LengthAppend(a: string, b: string)
    ensures Utf16Length(a + b) == Utf16Length(a) + Utf16Length(b)
    decreases |a|
  {
    if a == [] {
      assert a + b == b;
    } else {
      assert (a + b)[1..] == a[1..] + b;
      Utf16LengthAppend(a[1..], b);
    }
  }

  /** Index of the first `c` in `s`, or -1 when there is none (`indexOf`). */
  function IndexOf(s: string, c: char): (k: int)
    ensures -1 <= k < |s|
    ensures k == -1 ==> forall i :: 0 <= i < |s| ==> s[i] != c
    ensures 0 <= k ==> s[k] == c && forall i :: 0 <= i < k ==> s[i] != c
  {
    if s == [] then -1
    else if s[0] == c then 0
    else
      var k := IndexOf(s[1..], c);
      if k == -1 then -1 else k + 1
  }

  /**
   * `s.replace(c, '')` for a one-character string pattern: the string is cut
   * around the FIRST occurrence of `c` only. One `c` goes when there is one,
   * nothing else goes, and the rest keeps its order.
   */
  function RemoveFirst(s: string, c: char): (r: string)
    ensures multiset(r) == multiset(s) - multiset{c}
    ensures IsSubsequence(r, s)
  {
    var k := IndexOf(s, c);
    if k < 0 then
      SubsequenceReflexive(s);
      assert multiset(s)[c] == 0;
      s
    else
      var before, after := s[..k], s[k + 1..];
      assert s == before + [c] + after;
      DeletionIsSubsequence(s, k);
      CutMultiset(before, c, after);
      before + after
  }

  /** `IndexOf` is pinned down by its contract: a position holding `c` with none before it is the answer. */
  lemma IndexOfAt(s: string, c: char, k: nat)
    requires k < |s| && s[k] == c
    requires forall i :: 0 <= i < k ==> s[i] != c
    ensures IndexOf(s, c) == k
  {
  }

  /**
   * Reference for `replace(c, '')`: whatever precedes the first `c` and
   * whatever follows it, the result is the two joined.
   */
  lemma RemoveFirstUnique(pre: string, c: char, post: string)
    requires c !in pre
    ensures RemoveFirst(pre + [c] + post, c) == pre + post
  {
    var s := pre + [c] + post;
    assert s[|pre|] == c;
    assert forall i :: 0 <= i < |pre| ==> s[i] == pre[i];
    IndexOfAt(s, c, |pre|);
    assert s[..|pre|] == pre && s[|pre| + 1..] == post;
  }

  /** `replace` leaves a string without the pattern as it is. */
  lemma RemoveFirstAbsent(s: string, c: char)
    requires c !in s
    ensures RemoveFirst(s, c) == s
  {
  }

  /** A character other than `c` in front is kept in front. */
  lemma RemoveFirstCons(x: char, t: string, c: char)
    requires x != c
    ensures RemoveFirst([x] + t, c) == [x] + RemoveFirst(t, c)
  {
    if c !in t {
      RemoveFirstConsAbsent(x, t, c);
    } else {
      var k :| 0 <= k < |t| && t[k] == c && forall i :: 0 <= i < k ==> t[i] != c by {
        FirstOccurrence(t, c);
      }
      var pre, post := t[..k], t[k + 1..];
      assert t == pre + [c] + post;
      assert c !in pre by {
        assert forall i :: 0 <= i < |pre| ==> pre[i] == t[i];
      }
      RemoveFirstUnique(pre, c, post);
      RemoveFirstConsPresent(x, pre, c, post);
    }
  }

  lemma RemoveFirstConsAbsent(x: char, t: string, c: char)
    requires x != c && c !in t
    ensures RemoveFirst([x] + t, c) == [x] + RemoveFirst(t, c)
  {
    RemoveFirstAbsent(t, c);
    assert c !in [x] + t;
    RemoveFirstAbsent([x] + t, c);
  }

  lemma RemoveFirstConsPresent(x: char, pre: string, c: char, post: string)
    requires x != c && c !in pre
    ensures RemoveFirst([x] + (pre + [c] + post), c) == [x] + (pre + post)
  {
    var u := [x] + pre;
    assert [x] + (pre + [c] + post) == u + [c] + post;
    RemoveFirstUnique(u, c, post);
    assert u + post == [x] + (pre + post);
  }

  /** A character that occurs has a first occurrence. */
  lemma FirstOccurrence(t: string, c: char)
    requires c in t
    ensures exists k :: 0 <= k < |t| && t[k] == c && forall i :: 0 <= i < k ==> t[i] != c
  {
    var k := IndexOf(t, c);
    assert k >= 0;
  }

  /**
   * A second, independent reading of a chain of `replace(c, '')` calls, one
   * per character of `cs`: one left-to-right scan that drops a character of
   * `cs` the first time it is met (`seen` holds those already dropped) and
   * keeps every other character in order.
   */
  function DropFirsts(s: string, cs: set<char>, seen: set<char>): string
    decreases |s|
  {
    if s == [] then []
    else if s[0] in cs && s[0] !in seen then DropFirsts(s[1..], cs, seen + {s[0]})
    else [s[0]] + DropFirsts(s[1..], cs, seen)
  }

  lemma {:induction false} DropFirstsNothing(s: string, seen: set<char>)
    ensures DropFirsts(s, {}, seen) == s
    decreases |s|
  {
    if s != [] {
      DropFirstsNothing(s[1..], seen);
      assert s == [s[0]] + s[1..];
    }
  }

  /** Adding a character to both `cs` and `seen` changes nothing: it counts as already dropped. */
  lemma {:induction false} DropFirstsSeen(s: string, cs: set<char>, seen: set<char>, c: char)
    requires c !in cs
    ensures DropFirsts(s, cs + {c}, seen + {c}) == DropFirsts(s, cs, seen)
    decreases |s|
  {
    if s != [] {
      if s[0] in cs && s[0] !in seen {
        assert seen + {c} + {s[0]} == seen + {s[0]} + {c};
        DropFirstsSeen(s[1..], cs, seen + {s[0]}, c);
      } else {
        DropFirstsSeen(s[1..], cs, seen, c);
      }
    }
  }

  /** One more `replace(c, '')` after the scan is the scan that also drops the first `c`. */
  lemma {:induction false} RemoveFirstAfterDropFirsts(s: string, cs: set<char>, seen: set<char>, c: char)
    requires c !in cs && c !in seen
    ensures RemoveFirst(DropFirsts(s, cs, seen), c) == DropFirsts(s, cs + {c}, seen)
    decreases |s|
  {
    if s == [] {
      RemoveFirstAbsent([], c);
    } else if s[0] == c {
      var rest := DropFirsts(s[1..], cs, seen);
      assert RemoveFirst(DropFirsts(s, cs, seen), c) == rest by {
        assert DropFirsts(s, cs, seen) == [] + [c] + rest;
        RemoveFirstUnique([], c, rest);
      }
      assert DropFirsts(s, cs + {c}, seen) == rest by {
        assert DropFirsts(s, cs + {c}, seen) == DropFirsts(s[1..], cs + {c}, seen + {c});
        DropFirstsSeen(s[1..], cs, seen, c);
      }
    } else if s[0] in cs && s[0] !in seen {
      var seen' := seen + {s[0]};
      assert DropFirsts(s, cs, seen) == DropFirsts(s[1..], cs, seen');
      assert DropFirsts(s, cs + {c}, seen) == DropFirsts(s[1..], cs + {c}, seen');
      RemoveFirstAfterDropFirsts(s[1..], cs, seen', c);
    } else {
      var rest := DropFirsts(s[1..], cs, seen);
      assert RemoveFirst(DropFirsts(s, cs, seen), c) == [s[0]] + RemoveFirst(rest, c) by {
        assert DropFirsts(s, cs, seen) == [s[0]] + rest;
        RemoveFirstCons(s[0], rest, c);
      }
      assert DropFirsts(s, cs + {c}, seen) == [s[0]] + DropFirsts(s[1..], cs + {c}, seen);
      RemoveFirstAfterDropFirsts(s[1..], cs, seen, c);
    }
  }

  lemma CutMultiset(before: string, c: char, after: string)
    ensures multiset(before + after) == multiset(before + [c] + after) - multiset{c}
  {
    var m := multiset(before) + multiset(after);
    assert multiset(before + [c] + after) == m + multiset{c};
    assert multiset(before + after) == m;
  }

  /** `a` is `b` with some characters deleted and the rest kept in order. */
  predicate IsSubsequence<T(==)>(a: seq<T>, b: seq<T>)
    decreases |b|
  {
    if a == [] then true
    else if b == [] then false
    else (a[0] == b[0] && IsSubsequence(a[1..], b[1..])) || IsSubsequence(a, b[1..])
  }

  lemma {:induction false} SubsequenceReflexive<T>(a: seq<T>)
    ensures IsSubsequence(a, a)
    decreases |a|
  {
    if a != [] { SubsequenceReflexive(a[1..]); }
  }

  lemma {:induction false} SubsequenceTransitive<T>(a: seq<T>, b: seq<T>, c: seq<T>)
    requires IsSubsequence(a, b) && IsSubsequence(b, c)
    ensures IsSubsequence(a, c)
    decreases |c|
  {
    if a != [] {
      if IsSubsequence(b, c[1..]) {
        SubsequenceTransitive(a, b, c[1..]);
      } else if a[0] == b[0] && IsSubsequence(a[1..], b[1..]) {
        SubsequenceTransitive(a[1..], b[1..], c[1..]);
      } else {
        SubsequenceTransitive(a, b[1..], c[1..]);
      }
    }
  }

  /** Dropping the first element of the longer sequence keeps the relation. */
  lemma SubsequenceDropHead<T>(a: seq<T>, b: seq<T>)
    requires b != [] && IsSubsequence(a, b[1..])
    ensures IsSubsequence(a, b)
  {
  }

  /** A prefix is a subsequence. */
  lemma {:induction false} PrefixIsSubsequence<T>(a: seq<T>, b: seq<T>)
    ensures IsSubsequence(a, a + b)
    decreases |a| + |b|
  {
    if a == [] {
    } else {
      assert (a + b)[1..] == a[1..] + b;
      PrefixIsSubsequence(a[1..], b);
    }
  }

  /** No entry appears twice. */
  predicate NoDuplicates<T(==)>(list: seq<T>) {
    forall i, j :: 0 <= i < j < |list| ==> list[i] != list[j]
  }

  /** Entries of a duplicate-free list are distinct from one another in any subsequence as well. */
  lemma {:induction false} SubsequenceKeepsNoDuplicates<T>(a: seq<T>, b: seq<T>)
    requires IsSubsequence(a, b) && NoDuplicates(b)
    ensures NoDuplicates(a)
    decreases |b|
  {
    if a != [] {
      assert NoDuplicates(b[1..]) by {
        forall i, j | 0 <= i < j < |b[1..]| ensures b[1..][i] != b[1..][j] {
          assert b[1..][i] == b[i + 1] && b[1..][j] == b[j + 1];
        }
      }
      if a[0] == b[0] && IsSubsequence(a[1..], b[1..]) {
        SubsequenceKeepsNoDuplicates(a[1..], b[1..]);
        SubsequenceMembers(a[1..], b[1..]);
        forall j | 0 < j < |a| ensures a[0] != a[j] {
          assert a[j] == a[1..][j - 1];
          var k :| 0 <= k < |b[1..]| && b[1..][k] == a[j];
          assert b[0] != b[k + 1];
        }
        forall i, j | 0 <= i < j < |a| ensures a[i] != a[j] {
          if i > 0 { assert a[i] == a[1..][i - 1] && a[j] == a[1..][j - 1]; }
        }
      } else {
        SubsequenceKeepsNoDuplicates(a, b[1..]);
      }
    }
  }

  /** Every entry of a subsequence is an entry of the whole. */
  lemma {:induction false} SubsequenceMembers<T>(a: seq<T>, b: seq<T>)
    requires IsSubsequence(a, b)
    ensures forall i :: 0 <= i < |a| ==> exists k :: 0 <= k < |b| && b[k] == a[i]
    decreases |b|
  {
    if a != [] {
      if a[0] == b[0] && IsSubsequence(a[1..], b[1..]) {
        SubsequenceMembers(a[1..], b[1..]);
        forall i | 0 <= i < |a| ensures exists k :: 0 <= k < |b| && b[k] == a[i] {
          if i == 0 { assert b[0] == a[0]; }
          else {
            assert a[i] == a[1..][i - 1];
            var k :| 0 <= k < |b[1..]| && b[1..][k] == a[i];
            assert b[k + 1] == a[i];
          }
        }
      } else {
        SubsequenceMembers(a, b[1..]);
        forall i | 0 <= i < |a| ensures exists k :: 0 <= k < |b| && b[k] == a[i] {
          var k :| 0 <= k < |b[1..]| && b[1..][k] == a[i];
          assert b[k + 1] == a[i];
        }
      }
    }
  }

  /** Deleting the character at one position keeps the others in order. */
  lemma {:induction false} DeletionIsSubsequence<T>(s: seq<T>, k: nat)
    requires k < |s|
    ensures IsSubsequence(s[..k] + s[k + 1..], s)
    decreases k
  {
    var d := s[..k] + s[k + 1..];
    if k == 0 {
      assert d == s[1..];
      SubsequenceReflexive(s[1..]);
    } else {
      DeletionIsSubsequence(s[1..], k - 1);
      assert d[1..] == s[1..][..k - 1] + s[1..][k..];
    }
  }

  /** The decimal digit of a value below ten. */
  function DigitChar(d: nat): char
    requires d < 10
  {
    ['0', '1', '2', '3', '4', '5', '6', '7', '8', '9'][d]
  }

  function DigitValue(c: char): nat {
    if '0' <= c <= '9' then c as int - '0' as int else 0
  }

  predicate IsDigit(c: char) {
    '0' <= c <= '9'
  }

  /** `${n}` for a count: its decimal digits, most significant first, without leading zeros. */
  function NatToString(n: nat): (s: string)
    ensures s != []
    ensures forall i :: 0 <= i < |s| ==> IsDigit(s[i])
    ensures s[0] == '0' ==> n == 0 && s == "0"
  {
    if n < 10 then [DigitChar(n)]
    else
      var s := NatToString(n / 10) + [DigitChar(n % 10)];
      assert s[0] == NatToString(n / 10)[0];
      s
  }

  /** Reads a string of decimal digits back as a number. */
  function ParseNat(s: string): nat {
    if s == [] then 0 else 10 * ParseNat(s[..|s| - 1]) + DigitValue(s[|s| - 1])
  }

  /** The decimal rendering of a count can be read back to the same count. */
  lemma {:induction false} NatToStringRoundTrip(n: nat)
    ensures ParseNat(NatToString(n)) == n
  {
    if n >= 10 {
      NatToStringRoundTrip(n / 10);
      var s := NatToString(n);
      assert s[..|s| - 1] == NatToString(n / 10);
    }
  }
}

=== FILE: wrappers.dfy ===
/** Option and Result, the two failure-carrying types the screens' models return. */
module Wrappers {

  /** A value that may be absent: an optional field of a JavaScript object. */
  datatype Option<+T> = None | Some(value: T)

  /** Either the next form state or the rejection an alert dialog reports. */
  datatype Result<+R, +E> = Success(value: R) | Failure(error: E)
}
